=== FILE: README.md ===
# WhereIm game core in Dafny

WhereIm is a small location game: the map centres on the player, and "Start
game" pins that region, spawns a number of car markers at random around its
center and then, once per second, moves every car a fixed step toward the
center until it is closer than a stop distance. "X" ends the game.

This project models the two pieces of the app that carry logic:

- the `Game` session (`WhereIm/game.swift`): the level counter whose `didSet`
  observer respawns the cars, `init`, `startGame`, `nextLevel`, `addCars`,
  `endGame` and the per-tick `updateCarPositions`, with the `CarAnnotation`
  and `StarAnnotation` records;
- the map view's `Coordinator` (`WhereIm/MapView.swift`): the span clamp
  between `minDelta` and `maxDelta`, the region choice in `updateUIView` and
  `regionDidChangeAnimated`, the timer's `checkRegion`, and the operations on
  the map's annotation list (`updateCarAnnotation`, `updateStarAnnotation`,
  `removeCarAnnotations`, `removeStarAnnotations`).

Everything is a pure function over immutable datatypes; coordinates and
spans are reals. Randomness enters as `Draw` values (an offset on each axis,
bounded to plus or minus 0.02 degrees, and an index into the two car glyphs);
the motion step of the tick is a function parameter; timers are reduced to
whether one is scheduled; the map is its current region plus an ordered
sequence of `Car` / `Star` annotations.

Files, one module each: `wrappers.dfy` (Swift optionals), `geo.dfy`
(coordinate, span, region, squared distance), `annotations.dfy` (the marker
records and glyphs), `motion.dfy` (parked test and one step toward the
target), `game.dfy` (the session state machine), `session.dfy` (arbitrary
runs of starts, ends and ticks), `mapview.dfy` (the coordinator) and
`integration.dfy` (the game bound to the map view as `ContentView` binds it).

Behaviour of the code worth noting:

- `Game(level: 5)` spawns one more car than the constructor's argument on
  its first start, six: `nextLevel` raises the level before the observer
  respawns (`Session.FirstStartSpawnsSix`).
- A start while a game runs is not guarded: the level rises again and the
  cars are replaced, not accumulated (`GameSession.StartGameReplacesCars`).
- `updateUIView` applies the free region as it is; only
  `regionDidChangeAnimated` clamps it. Once the change handler has run, the
  two handlers agree (`MapViewCoordinator.RegionDidChangeSettles`).
- Every `StarAnnotation` is created with identifier -1, so in the app the
  "else" branch of `updateStarAnnotation` only runs when there is no star at
  all; the model keeps identifiers general and states both branches.

Two consequences of the code that the model makes visible: a car annotation
already on the map keeps its glyph when a later game's car with the same
identifier is synced onto it (only the coordinate is copied), and after
`endGame` the view is no longer pinned, so `checkRegion` leaves the old car
annotations on the map (`Integration.CheckAfterEndGameLeavesMap`);
`removeCarAnnotations` is not called from any of the files modelled.

## Model

| member | source | states |
|---|---|---|
| `Annotations.NewStar` | WhereIm/game.swift:110-115 | a star is always created with the sentinel identifier -1, at the given coordinate and glyph |
| `GameSession.Spawn` | WhereIm/game.swift:51-57 | spawning for n draws yields exactly n cars numbered 0..n-1 in order, each within 0.02 degrees of the center on both axes and drawn with one of the two car glyphs |
| `GameSession.AddCars` | WhereIm/game.swift:50-58 | appends exactly `level` cars after the existing ones and keeps those unchanged; a negative level traps and the region is only needed when the loop runs |
| `GameSession.Init` | WhereIm/game.swift:26-28 | a new game has the given level but no cars, no region, no star and no timer, because the level observer does not fire in an initialiser |
| `GameSession.SetLevel` | WhereIm/game.swift:17-21 | assigning the level discards every car and leaves exactly `level` numbered cars around the region center; region, star and timer are untouched |
| `GameSession.NextLevel` | WhereIm/game.swift:45-48 | raises the level by exactly one, schedules the timer and leaves level-many numbered cars |
| `GameSession.StartGame` | WhereIm/game.swift:30-35 | pins the region, raises the level by one, leaves level-many cars numbered 0..level-1 within 0.02 degrees of the center, and a star with identifier -1 at the center that no car identifier equals |
| `GameSession.EndGame` | WhereIm/game.swift:37-43 | clears region, cars and timer and keeps level and star |
| `GameSession.UpdateCarPositions` | WhereIm/game.swift:67-89 | without a region nothing changes; otherwise the same cars in the same order keep identifier and glyph, parked cars are unchanged and the others take the step toward the center |
| `GameSession.InitConsistent` | WhereIm/game.swift:12-28 | a new game satisfies the session invariant: no timer, no region and no cars |
| `GameSession.StartGameConsistent` | WhereIm/game.swift:30-35 | from any state a start yields a running game with level-many numbered cars and the star at the region center |
| `GameSession.EndGameConsistent` | WhereIm/game.swift:37-43 | after an end the game is idle with no region and no cars |
| `GameSession.UpdateCarPositionsConsistent` | WhereIm/game.swift:67-89 | the tick preserves the session invariant |
| `GameSession.StartGameReplacesCars` | WhereIm/game.swift:17-21 | the cars after a start are the freshly spawned ones whatever cars existed before, so a second start without an end does not accumulate cars |
| `GameSession.EndGameIdempotent` | WhereIm/game.swift:37-43 | ending twice is ending once, and ending an idle game changes nothing |
| `GameSession.TickAfterEndGameIsNoOp` | WhereIm/game.swift:67-68 | a tick after the game ended finds no region and changes nothing |
| `Motion.Parked` | WhereIm/game.swift:69-75 | the stop test on squared distance: a car on the target is parked |
| `Motion.ParkedWithinStopDistanceOnEachAxis` | WhereIm/game.swift:74-75 | a parked car is within 0.003 of the target on each axis |
| `GameSession.MoveCar` | WhereIm/game.swift:72-88 | one car in one tick keeps its identifier and glyph, stays put when parked and otherwise takes the step toward the center |
| `Motion.ParkedIffWithinStopDistance` | WhereIm/game.swift:74-75 | the squared-distance test against 0.003 squared agrees with the distance test against 0.003 |
| `Motion.Advance` | WhereIm/game.swift:77-81 | one step scales the offset to the center on both axes by the same factor 1 - 0.0002/d |
| `Motion.AdvanceShortensBySpeed` | WhereIm/game.swift:74-81 | a car at distance d of at least 0.003 ends exactly 0.0002 closer to the center |
| `Motion.Approach` | WhereIm/game.swift:62-64 | after n ticks the distance is either below the stop distance or exactly n steps shorter |
| `Motion.ApproachParks` | WhereIm/game.swift:67-88 | with n * 0.0002 at least the starting distance, n ticks park the car, and the tracked distance stays the true distance |
| `Motion.StepNorthOfTarget` | WhereIm/game.swift:69-81 | a car at (10.0031, 20) is not parked and moves to (10.0029, 20) toward (10, 20) |
| `Motion.ParkedNearTarget` | WhereIm/game.swift:69-75 | a car at (10.002, 20) is parked with respect to (10, 20) |
| `Session.Apply` | WhereIm/game.swift:30-52 | a start is possible exactly when it does not trap and the draws are in range; end and tick always apply |
| `Session.RunCountsLevels` | WhereIm/game.swift:45-46 | along any run the level rises by exactly the number of starts, so it never decreases, and the session invariant is kept |
| `Session.RunFromInitConsistent` | WhereIm/game.swift:26-28 | every state reached from a new game satisfies the session invariant |
| `Session.FirstStartSpawnsSix` | WhereIm/ContentView.swift:18 | the app's `Game(level: 5)` has level 6 and six cars after its first start |
| `MapViewCoordinator.ClampDelta` | WhereIm/MapView.swift:90-91 | the clamped delta lies in [0.01, 0.02], equals the input when that is in range and the nearer bound otherwise |
| `MapViewCoordinator.ClampRegion` | WhereIm/MapView.swift:89-92 | the clamped region keeps its center and clamps each delta on its own axis with `ClampDelta`, so an in-range delta is kept even when the other is out of range; the result is in range and an in-range region is unchanged |
| `MapViewCoordinator.ClampRegionIdempotent` | WhereIm/MapView.swift:89-92 | clamping twice is clamping once |
| `MapViewCoordinator.FirstMatch` | WhereIm/MapView.swift:117 | finds the least index whose annotation has the kind and identifier, or reports that none has |
| `MapViewCoordinator.KindOf` | WhereIm/MapView.swift:140 | keeps exactly the annotations of the kind |
| `MapViewCoordinator.Without` | WhereIm/MapView.swift:139-141 | keeps exactly the annotations not of the kind |
| `MapViewCoordinator.KindsPartition` | WhereIm/MapView.swift:139-147 | the car annotations and the star annotations together are the whole list |
| `MapViewCoordinator.WithoutIsOtherKind` | WhereIm/MapView.swift:139-147 | removing the cars leaves exactly the stars in order, and removing the stars leaves exactly the cars in order |
| `MapViewCoordinator.UpdateCarAnnotation` | WhereIm/MapView.swift:116-124 | an existing car with the identifier only gets the coordinate, otherwise the car is appended; afterwards the car is shown at its coordinate, the list grew by at most one and the stars are untouched |
| `MapViewCoordinator.UpdateStarAnnotation` | WhereIm/MapView.swift:126-137 | an existing star with identifier -1 is moved to the map center, otherwise all stars are replaced by exactly one at the center; cars are untouched |
| `MapViewCoordinator.UpdateStarAnnotationIdempotent` | WhereIm/MapView.swift:126-137 | re-centering the star twice is re-centering it once |
| `MapViewCoordinator.RemoveCarAnnotations` | WhereIm/MapView.swift:139-142 | leaves exactly the star annotations in order and no car |
| `MapViewCoordinator.RemoveStarAnnotations` | WhereIm/MapView.swift:144-147 | leaves exactly the car annotations in order and no star |
| `MapViewCoordinator.UpdateUIView` | WhereIm/MapView.swift:28-35 | the pinned region is applied when present, the free region otherwise; annotations are untouched |
| `MapViewCoordinator.RegionDidChange` | WhereIm/MapView.swift:85-97 | when pinned, the map snaps back and the parent is not written; otherwise the map gets exactly the clamp of its region (same center, both deltas in range), that region is written back to the parent and the star sits at its center |
| `MapViewCoordinator.RegionDidChangeSettles` | WhereIm/MapView.swift:28-35 | the change handler re-fired by its own region write changes nothing, and the view update applies the same region |
| `MapViewCoordinator.SyncCars` | WhereIm/MapView.swift:110-112 | syncing the cars keeps the region and the stars and adds at most one annotation per car |
| `MapViewCoordinator.UpdateCarAnnotationFrame` | WhereIm/MapView.swift:116-124 | updating one car leaves the annotation found for every other identifier where and as it was |
| `MapViewCoordinator.SyncCarsFrame` | WhereIm/MapView.swift:110-112 | syncing cars with other identifiers leaves the annotation found for this identifier unchanged |
| `MapViewCoordinator.SyncCarsFrameAll` | WhereIm/MapView.swift:110-112 | for every identifier no synced car has, the annotation found for it keeps its index and value |
| `MapViewCoordinator.SyncCarsKeepsExisting` | WhereIm/MapView.swift:116-124 | a car annotation already on the map for an identifier stays the one found for it and keeps its identifier and glyph through the sync; only its coordinate may change |
| `MapViewCoordinator.SyncCarsKeepsExistingAll` | WhereIm/MapView.swift:110-112 | for every identifier already on the map, its car annotation keeps its index, identifier and glyph through the sync |
| `MapViewCoordinator.SyncCarsShowsCars` | WhereIm/MapView.swift:110-112 | with distinct identifiers, every car is shown at its own coordinate after the sync |
| `MapViewCoordinator.SyncCarsAppendsNewCars` | WhereIm/MapView.swift:110-112 | on a map holding none of their identifiers, the cars are appended in order |
| `MapViewCoordinator.CheckRegion` | WhereIm/MapView.swift:105-114 | without a map or a pinned region nothing changes; otherwise the map is on the pinned region, the stars are untouched, every car with a distinct identifier is shown at its coordinate, at most one annotation per view car is added, the annotation found for an identifier no view car has is left where and as it was, and a car annotation already on the map keeps its index, identifier and glyph |
| `Integration.Bound` | WhereIm/ContentView.swift:22 | the view's pinned region is the game's region and its cars are the game's cars |
| `Integration.FirstCheckAddsSpawnedCars` | WhereIm/MapView.swift:105-114 | after a start, the first check on a map without cars pins it to the game's region and appends exactly the spawned cars |
| `Integration.CheckShowsRunningGame` | WhereIm/MapView.swift:105-114 | while a game runs, each check shows every game car at its current coordinate |
| `Integration.CheckAfterEndGameLeavesMap` | WhereIm/MapView.swift:105-108 | after an end `checkRegion` changes nothing |

## Left out

- Annotation view construction and rendering (`viewFor` with labels and fonts, WhereIm/MapView.swift:52-83) and the emoji-to-image drawing (WhereIm/EmojiAnnotation.swift): presentation only.
- Timers, their scheduling and invalidation (WhereIm/game.swift:61-65, WhereIm/MapView.swift:99-103, 149-151): a scheduled game timer is the flag `timerScheduled`, and ticks and checks are events a caller applies. A second `startGame` without `endGame` overwrites the timer handle without invalidating the old timer, which keeps firing; the model keeps only the last handle and so does not show the doubled tick rate.
- The `DispatchQueue.main.async` and animation wrappers around coordinate writes: the writes are taken as synchronous.
- GameSession.UpdateCarPositions: the step is a parameter rather than the floating-point `(center - position) / sqrt(...) * 0.0002`; the exact step is modelled separately as `Motion.Advance` over reals, with the distance supplied by the caller since square roots are not modelled, and double rounding is not modelled.
- `Double.random` and `randomElement`: replaced by caller-supplied `Draw` values constrained to the ranges the generators produce.
- Swift traps: `level += 1` past `Int.max`, the range `0..<level` for a negative level and the force-unwrapped region are preconditions of the functions; `Session.Apply` reports such a start as `None`.
- `ContentView`, `WhereImApp`, the stored `AppState` flag and `LocationManager`: UI and persistence glue; the free region is an input.
- `MKMapView` itself: only its region and ordered annotation list are modelled, `setRegion` is taken to apply the region exactly, and annotations are values, so the object identity shared between the game's cars and the map's annotations in the first game is replaced by copying coordinates at each check.
- `makeUIView`, `makeCoordinator` and the coordinator's initialiser: construction only; the coordinator's map is an `Option`.
- Published-property change notification (`@Published`, bindings): the binding is stated once as `Integration.Bound`.

=== FILE: annotations.dfy ===
/**
 * The markers the game puts on the map: cars, identified by their spawn
 * index, and the star that marks the target. In the app both are classes
 * conforming to the map's annotation protocol; here they are the two
 * variants of one value type.
 */
module Annotations {
  import opened Geo

  /** The glyphs drawn on the map: two car variants and two star variants. */
  datatype Emoji =
    | Automobile    // the red car
    | SportUtility  // the blue car
    | GlowingStar   // the game's own center marker
    | WhiteStar     // the marker the map view keeps at its region center

  /** The glyphs a spawned car is drawn from. */
  const CarGlyphs: seq<Emoji> := [Automobile, SportUtility]

  /** Every star annotation is created with this identifier; no car has it. */
  const StarIdentifier: int := -1

  datatype Annotation =
    | Car(identifier: int, coordinate: Coordinate, emoji: Emoji)
    | Star(identifier: int, coordinate: Coordinate, emoji: Emoji)

  type CarAnnotation = a: Annotation | a.Car?
    witness Car(0, Coordinate(0.0, 0.0), Automobile)

  type StarAnnotation = a: Annotation | a.Star?
    witness Star(StarIdentifier, Coordinate(0.0, 0.0), WhiteStar)

  /** The star initialiser: the identifier is always the sentinel. */
  function NewStar(coordinate: Coordinate, emoji: Emoji): (s: StarAnnotation)
    ensures s.identifier == StarIdentifier
    ensures s.coordinate == coordinate && s.emoji == emoji
  {
    Star(StarIdentifier, coordinate, emoji)
  }

  /** The two dynamic types an annotation on the map can have. */
  datatype Kind = CarKind | StarKind

  predicate IsKind(a: Annotation, k: Kind) {
    match k
    case CarKind => a.Car?
    case StarKind => a.Star?
  }

  /** `(a as? K)?.identifier == id`: the test the map view searches with. */
  predicate Matches(a: Annotation, k: Kind, id: int) {
    IsKind(a, k) && a.identifier == id
  }
}

=== FILE: game.dfy ===
/**
 * The game session: a level counter whose observer respawns the cars, the
 * pinned target region, the cars themselves and the star marking the target.
 * Random draws are inputs (`Draw`), the motion step of the tick is a
 * parameter, and the repeating timer is reduced to whether one is scheduled.
 */
module GameSession {
  import opened Wrappers
  import opened Geo
  import opened Annotations
  import Motion

  /** Swift's `Int` is 64 bits wide: `level += 1` traps beyond this. */
  const IntMax: int := 0x7FFF_FFFF_FFFF_FFFF

  /** Half-width, in degrees, of the uniform spawn offset on each axis. */
  const Jitter: real := 0.02

  /**
   * What `Game` holds. `timerScheduled` stands for the timer handle being
   * non-nil; the level is private in the app but part of the state here.
   */
  datatype Game = Game(
    level: int,
    region: Option<Region>,
    cars: seq<CarAnnotation>,
    centerAnnotation: Option<StarAnnotation>,
    timerScheduled: bool)

  /** One car's random draws: an offset on each axis and a glyph index. */
  datatype Draw = Draw(latitudeOffset: real, longitudeOffset: real, glyphIndex: nat)

  /** A draw the random generators can produce. */
  predicate ValidDraw(d: Draw) {
    && -Jitter <= d.latitudeOffset <= Jitter
    && -Jitter <= d.longitudeOffset <= Jitter
    && d.glyphIndex < |CarGlyphs|
  }

  predicate ValidDraws(ds: seq<Draw>) {
    forall i :: 0 <= i < |ds| ==> ValidDraw(ds[i])
  }

  predicate WithinJitter(c: Coordinate, center: Coordinate) {
    && -Jitter <= c.latitude - center.latitude <= Jitter
    && -Jitter <= c.longitude - center.longitude <= Jitter
  }

  /** Cars numbered by position, each drawn with a car glyph. */
  predicate NumberedCars(cars: seq<CarAnnotation>) {
    forall i :: 0 <= i < |cars| ==> cars[i].identifier == i && cars[i].emoji in CarGlyphs
  }

  /**
   * The cars `addCars` appends for `|draws|` indices, car `i` placed at the
   * center moved by draw `i`.
   */
  function Spawn(center: Coordinate, draws: seq<Draw>): (cars: seq<CarAnnotation>)
    requires ValidDraws(draws)
    ensures |cars| == |draws|
    ensures NumberedCars(cars)
    ensures forall i :: 0 <= i < |cars| ==> WithinJitter(cars[i].coordinate, center)
    ensures forall i :: 0 <= i < |cars| ==>
      cars[i].coordinate.latitude == center.latitude + draws[i].latitudeOffset &&
      cars[i].coordinate.longitude == center.longitude + draws[i].longitudeOffset &&
      cars[i].emoji == CarGlyphs[draws[i].glyphIndex]
  {
    if |draws| == 0 then []
    else
      var n := |draws| - 1;
      var d := draws[n];
      var position := Coordinate(center.latitude + d.latitudeOffset, center.longitude + d.longitudeOffset);
      Spawn(center, draws[..n]) + [Car(n, position, CarGlyphs[d.glyphIndex])]
  }

  /**
   * `addCars(for:)`: appends `level` spawned cars to `cars`. The range
   * `0..<level` traps for a negative level, and the center is read through
   * a force-unwrap only once the loop body runs.
   */
  function AddCars(cars: seq<CarAnnotation>, region: Option<Region>, level: int, draws: seq<Draw>)
    : (r: seq<CarAnnotation>)
    requires level >= 0 && (level > 0 ==> region.Some?)
    requires |draws| == level && ValidDraws(draws)
    ensures |r| == |cars| + level
    ensures r[..|cars|] == cars
    ensures level > 0 ==> r[|cars|..] == Spawn(region.value.center, draws)
  {
    if level == 0 then cars else cars + Spawn(region.value.center, draws)
  }

  /** `Game(level:)`: the observer on `level` does not fire in an initialiser. */
  function Init(level: int): (g: Game)
    ensures g.level == level
    ensures g.cars == [] && g.region == None && g.centerAnnotation == None
    ensures !g.timerScheduled
  {
    Game(level, None, [], None, false)
  }

  /**
   * Assigning `level`: the `didSet` observer throws all cars away and
   * respawns exactly `level` of them around the region center.
   */
  function SetLevel(g: Game, level: int, draws: seq<Draw>): (r: Game)
    requires level >= 0 && (level > 0 ==> g.region.Some?)
    requires |draws| == level && ValidDraws(draws)
    ensures r.level == level
    ensures |r.cars| == level && NumberedCars(r.cars)
    ensures level > 0 ==> forall i :: 0 <= i < level ==> WithinJitter(r.cars[i].coordinate, g.region.value.center)
    ensures r.region == g.region && r.centerAnnotation == g.centerAnnotation
    ensures r.timerScheduled == g.timerScheduled
  {
    g.(level := level, cars := AddCars([], g.region, level, draws))
  }

  /** `nextLevel`: raise the level by one and schedule the tick timer. */
  function NextLevel(g: Game, draws: seq<Draw>): (r: Game)
    requires -1 <= g.level < IntMax && (g.level + 1 > 0 ==> g.region.Some?)
    requires |draws| == g.level + 1 && ValidDraws(draws)
    ensures r.level == g.level + 1 && r.timerScheduled
    ensures |r.cars| == r.level && NumberedCars(r.cars)
    ensures r.region == g.region && r.centerAnnotation == g.centerAnnotation
  {
    SetLevel(g, g.level + 1, draws).(timerScheduled := true)
  }

  /** What `startGame` needs not to trap, and draws the generators can produce. */
  predicate CanStart(g: Game, draws: seq<Draw>) {
    -1 <= g.level < IntMax && |draws| == g.level + 1 && ValidDraws(draws)
  }

  /**
   * `startGame(region:)`: pin the region, go to the next level (which
   * respawns the cars around the region center) and put the star there.
   */
  function StartGame(g: Game, region: Region, draws: seq<Draw>): (r: Game)
    requires CanStart(g, draws)
    ensures r.region == Some(region)
    ensures r.level == g.level + 1
    ensures |r.cars| == r.level && NumberedCars(r.cars)
    ensures forall i :: 0 <= i < |r.cars| ==> WithinJitter(r.cars[i].coordinate, region.center)
    ensures r.centerAnnotation.Some?
    ensures r.centerAnnotation.value.coordinate == region.center
    ensures r.centerAnnotation.value.identifier == StarIdentifier
    ensures forall i :: 0 <= i < |r.cars| ==> r.cars[i].identifier != r.centerAnnotation.value.identifier
    ensures r.timerScheduled
  {
    var pinned := g.(region := Some(region));
    NextLevel(pinned, draws).(centerAnnotation := Some(NewStar(region.center, GlowingStar)))
  }

  /**
   * `endGame`: clear the region and the cars and drop the timer; the level
   * and the star are left as they were.
   */
  function EndGame(g: Game): (r: Game)
    ensures r.region == None && r.cars == [] && !r.timerScheduled
    ensures r.level == g.level && r.centerAnnotation == g.centerAnnotation
  {
    g.(region := None, cars := [], timerScheduled := false)
  }

  /** One car in one tick: parked cars stay, the others take one step. */
  function MoveCar(car: CarAnnotation, center: Coordinate, step: (Coordinate, Coordinate) -> Coordinate)
    : (r: CarAnnotation)
    ensures r.identifier == car.identifier && r.emoji == car.emoji
    ensures Motion.Parked(car.coordinate, center) ==> r == car
    ensures !Motion.Parked(car.coordinate, center) ==> r.coordinate == step(car.coordinate, center)
  {
    if Motion.Parked(car.coordinate, center) then car
    else Car(car.identifier, step(car.coordinate, center), car.emoji)
  }

  /**
   * `updateCarPositions`, the tick: nothing without a region; otherwise
   * every car that is not parked moves by `step(position, center)`, the
   * coordinate write taken as synchronous.
   */
  function UpdateCarPositions(g: Game, step: (Coordinate, Coordinate) -> Coordinate): (r: Game)
    ensures g.region.None? ==> r == g
    ensures r.level == g.level && r.region == g.region
    ensures r.centerAnnotation == g.centerAnnotation && r.timerScheduled == g.timerScheduled
    ensures |r.cars| == |g.cars|
    ensures forall i :: 0 <= i < |g.cars| ==>
      r.cars[i].identifier == g.cars[i].identifier && r.cars[i].emoji == g.cars[i].emoji
    ensures g.region.Some? ==> forall i :: 0 <= i < |g.cars| ==>
      if Motion.Parked(g.cars[i].coordinate, g.region.value.center) then r.cars[i] == g.cars[i]
      else r.cars[i].coordinate == step(g.cars[i].coordinate, g.region.value.center)
  {
    match g.region
    case None => g
    case Some(region) =>
      g.(cars := seq(|g.cars|, i requires 0 <= i < |g.cars| => MoveCar(g.cars[i], region.center, step)))
  }

  /**
   * What holds between calls: without a timer there is no region and no
   * car; with one, the region is pinned, there are `level` numbered cars and
   * the star sits at the region center.
   */
  predicate Consistent(g: Game) {
    if g.timerScheduled then
      && g.region.Some?
      && g.level >= 0
      && |g.cars| == g.level
      && NumberedCars(g.cars)
      && g.centerAnnotation == Some(NewStar(g.region.value.center, GlowingStar))
    else
      g.region.None? && g.cars == []
  }

  lemma InitConsistent(level: int)
    ensures Consistent(Init(level))
  {
  }

  lemma StartGameConsistent(g: Game, region: Region, draws: seq<Draw>)
    requires CanStart(g, draws)
    ensures Consistent(StartGame(g, region, draws))
  {
  }

  lemma EndGameConsistent(g: Game)
    ensures Consistent(EndGame(g))
  {
  }

  lemma UpdateCarPositionsConsistent(g: Game, step: (Coordinate, Coordinate) -> Coordinate)
    requires Consistent(g)
    ensures Consistent(UpdateCarPositions(g, step))
  {
  }

  /**
   * The cars after `startGame` do not depend on the cars before it: a
   * second start without an end replaces them rather than adding to them.
   */
  lemma StartGameReplacesCars(g: Game, region: Region, draws: seq<Draw>)
    requires CanStart(g, draws)
    ensures StartGame(g, region, draws).cars == Spawn(region.center, draws)
  {
  }

  /** `endGame` is harmless when nothing is running and idempotent. */
  lemma EndGameIdempotent(g: Game)
    ensures EndGame(EndGame(g)) == EndGame(g)
    ensures Consistent(g) && !g.timerScheduled ==> EndGame(g) == g
  {
  }

  /** A tick without a region, as after `endGame`, changes nothing. */
  lemma TickAfterEndGameIsNoOp(g: Game, step: (Coordinate, Coordinate) -> Coordinate)
    ensures UpdateCarPositions(EndGame(g), step) == EndGame(g)
  {
  }
}

=== FILE: geo.dfy ===
/**
 * The map framework's value types the game works with: a coordinate in
 * degrees, the visible span of a region and the region itself. Degrees are
 * modelled as reals; the framework's doubles are not.
 */
module Geo {

  datatype Coordinate = Coordinate(latitude: real, longitude: real)

  datatype Span = Span(latitudeDelta: real, longitudeDelta: real)

  datatype Region = Region(center: Coordinate, span: Span)

  function Square(x: real): (r: real)
    ensures r >= 0.0
  {
    x * x
  }

  /**
   * The planar squared distance in degree space: the quantity the tick takes
   * the square root of to decide whether a car has arrived.
   */
  function SquaredDistance(a: Coordinate, b: Coordinate): (r: real)
    ensures r >= 0.0
  {
    Square(a.latitude - b.latitude) + Square(a.longitude - b.longitude)
  }
}

=== FILE: integration.dfy ===
/**
 * The game wired to the map view as the content view does it: the view's
 * pinned region is the game's region and its cars are the game's cars.
 */
module Integration {
  import opened Wrappers
  import opened Geo
  import opened Annotations
  import opened GameSession
  import opened MapViewCoordinator

  /** The coordinator of a view bound to `g`, following the free region `free`. */
  function Bound(g: Game, free: Region, view: Option<MapState>): (c: Coordinator)
    ensures c.parent.fixedRegion == g.region && c.parent.cars == g.cars
  {
    Coordinator(MapView(free, g.region, g.cars), view)
  }

  lemma NumberedCarsAreDistinct(cars: seq<CarAnnotation>)
    requires NumberedCars(cars)
    ensures DistinctIdentifiers(cars)
  {
  }

  /**
   * The first timer check after a start, on a map with no car annotations,
   * pins the map to the game's region and adds exactly the game's cars.
   */
  lemma FirstCheckAddsSpawnedCars(g: Game, region: Region, draws: seq<Draw>, free: Region, m: MapState)
    requires CanStart(g, draws)
    requires KindOf(m.annotations, CarKind) == []
    ensures CheckRegion(Bound(StartGame(g, region, draws), free, Some(m))).mapView
      == Some(MapState(region, m.annotations + StartGame(g, region, draws).cars))
  {
    var started := StartGame(g, region, draws);
    var cars := started.cars;
    NumberedCarsAreDistinct(cars);
    SyncCarsAppendsNewCars(m.(region := region), cars);
  }

  /**
   * While a game runs, every timer check leaves each of the game's cars
   * shown at its current coordinate, however many ticks moved them.
   */
  lemma CheckShowsRunningGame(g: Game, free: Region, m: MapState)
    requires Consistent(g) && g.timerScheduled
    ensures var c := CheckRegion(Bound(g, free, Some(m)));
      && c.mapView.Some?
      && c.mapView.value.region == g.region.value
      && forall i :: 0 <= i < |g.cars| ==> Shows(c.mapView.value.annotations, g.cars[i])
  {
    NumberedCarsAreDistinct(g.cars);
  }

  /**
   * After `endGame` the view is no longer pinned, so its timer leaves the
   * map alone: car annotations already on it stay where they are.
   */
  lemma CheckAfterEndGameLeavesMap(g: Game, free: Region, view: Option<MapState>)
    ensures CheckRegion(Bound(EndGame(g), free, view)) == Bound(EndGame(g), free, view)
  {
  }
}

=== FILE: mapview.dfy ===
/**
 * The map view's coordinator: it clamps the span of the free region, keeps
 * the map on the game's pinned region, mirrors the game's cars into the
 * map's annotation list and keeps a star at the region center.
 *
 * The map itself is only its current region and its ordered annotations.
 */
module MapViewCoordinator {
  import opened Wrappers
  import opened Geo
  import opened Annotations

  /** The widest span the free region may show, in degrees. */
  const MaxDelta: real := 0.02
  /** The narrowest span the free region may show, in degrees. */
  const MinDelta: real := 0.01

  function Min(a: real, b: real): real {
    if a <= b then a else b
  }

  function Max(a: real, b: real): real {
    if a >= b then a else b
  }

  /** `max(minDelta, min(maxDelta, delta))`. */
  function ClampDelta(delta: real): (r: real)
    ensures MinDelta <= r <= MaxDelta
    ensures MinDelta <= delta <= MaxDelta ==> r == delta
    ensures delta < MinDelta ==> r == MinDelta
    ensures delta > MaxDelta ==> r == MaxDelta
  {
    Max(MinDelta, Min(MaxDelta, delta))
  }

  predicate SpanInRange(s: Span) {
    && MinDelta <= s.latitudeDelta <= MaxDelta
    && MinDelta <= s.longitudeDelta <= MaxDelta
  }

  /** The free region with both deltas of its span clamped. */
  function ClampRegion(region: Region): (r: Region)
    ensures r.center == region.center
    ensures SpanInRange(r.span)
    ensures SpanInRange(region.span) ==> r == region
    ensures r.span == Span(ClampDelta(region.span.latitudeDelta), ClampDelta(region.span.longitudeDelta))
  {
    region.(span := Span(ClampDelta(region.span.latitudeDelta), ClampDelta(region.span.longitudeDelta)))
  }

  lemma ClampRegionIdempotent(region: Region)
    ensures ClampRegion(ClampRegion(region)) == ClampRegion(region)
  {
  }

  /** The state the `MapView` struct reads through its bindings. */
  datatype MapView = MapView(region: Region, fixedRegion: Option<Region>, cars: seq<CarAnnotation>)

  /** The map: the region it shows and the annotations on it, in order. */
  datatype MapState = MapState(region: Region, annotations: seq<Annotation>)

  /** The coordinator with its parent view and its (optional) map. */
  datatype Coordinator = Coordinator(parent: MapView, mapView: Option<MapState>)

  /** Index of the first annotation of kind `k` with identifier `id`: `first(where:)`. */
  function FirstMatch(anns: seq<Annotation>, k: Kind, id: int): (r: Option<nat>)
    ensures r.Some? ==> r.value < |anns| && Matches(anns[r.value], k, id)
    ensures r.Some? ==> forall j :: 0 <= j < r.value ==> !Matches(anns[j], k, id)
    ensures r.None? ==> forall j :: 0 <= j < |anns| ==> !Matches(anns[j], k, id)
    decreases |anns|
  {
    if |anns| == 0 then None
    else if Matches(anns[0], k, id) then Some(0)
    else match FirstMatch(anns[1..], k, id)
      case None => None
      case Some(i) => Some(i + 1)
  }

  /** The annotations of kind `k`, in order: `filter { $0 is K }`. */
  function KindOf(anns: seq<Annotation>, k: Kind): (r: seq<Annotation>)
    ensures forall a :: a in r <==> a in anns && IsKind(a, k)
    ensures |r| <= |anns|
    decreases |anns|
  {
    if |anns| == 0 then []
    else (if IsKind(anns[0], k) then [anns[0]] else []) + KindOf(anns[1..], k)
  }

  /** The annotations left after removing every one of kind `k`. */
  function Without(anns: seq<Annotation>, k: Kind): (r: seq<Annotation>)
    ensures forall a :: a in r <==> a in anns && !IsKind(a, k)
    ensures |r| <= |anns|
    decreases |anns|
  {
    if |anns| == 0 then []
    else (if IsKind(anns[0], k) then [] else [anns[0]]) + Without(anns[1..], k)
  }

  lemma {:induction false} KindOfConcat(xs: seq<Annotation>, ys: seq<Annotation>, k: Kind)
    ensures KindOf(xs + ys, k) == KindOf(xs, k) + KindOf(ys, k)
    decreases |xs|
  {
    if |xs| == 0 {
      assert xs + ys == ys;
    } else {
      assert (xs + ys)[0] == xs[0];
      assert (xs + ys)[1..] == xs[1..] + ys;
      KindOfConcat(xs[1..], ys, k);
    }
  }

  /** Filtering one kind is a partition: every annotation is a car or a star. */
  lemma {:induction false} KindsPartition(anns: seq<Annotation>)
    ensures multiset(KindOf(anns, CarKind)) + multiset(KindOf(anns, StarKind)) == multiset(anns)
    ensures |KindOf(anns, CarKind)| + |KindOf(anns, StarKind)| == |anns|
    decreases |anns|
  {
    if |anns| > 0 {
      KindsPartition(anns[1..]);
      assert anns == [anns[0]] + anns[1..];
    }
  }

  /** Removing one kind leaves exactly the other kind, in order. */
  lemma {:induction false} WithoutIsOtherKind(anns: seq<Annotation>)
    ensures Without(anns, CarKind) == KindOf(anns, StarKind)
    ensures Without(anns, StarKind) == KindOf(anns, CarKind)
    decreases |anns|
  {
    if |anns| > 0 {
      WithoutIsOtherKind(anns[1..]);
    }
  }

  lemma KindOfNone(anns: seq<Annotation>, k: Kind)
    requires forall a :: a in anns ==> !IsKind(a, k)
    ensures KindOf(anns, k) == []
  {
  }

  lemma {:induction false} KindOfAll(anns: seq<Annotation>, k: Kind)
    requires forall a :: a in anns ==> IsKind(a, k)
    ensures KindOf(anns, k) == anns
    decreases |anns|
  {
    if |anns| > 0 {
      assert anns[0] in anns;
      KindOfAll(anns[1..], k);
    }
  }

  /** Replacing one annotation by another, neither of kind `k`, keeps the kind-`k` list. */
  lemma KindOfReplace(anns: seq<Annotation>, i: nat, a: Annotation, k: Kind)
    requires i < |anns| && !IsKind(anns[i], k) && !IsKind(a, k)
    ensures KindOf(anns[i := a], k) == KindOf(anns, k)
  {
    var pre, post := anns[..i], anns[i + 1..];
    assert anns == pre + [anns[i]] + post;
    assert anns[i := a] == pre + [a] + post;
    KindOfConcat(pre + [anns[i]], post, k);
    KindOfConcat(pre, [anns[i]], k);
    KindOfConcat(pre + [a], post, k);
    KindOfConcat(pre, [a], k);
  }

  lemma FirstMatchAt(anns: seq<Annotation>, k: Kind, id: int, i: nat)
    requires i < |anns| && Matches(anns[i], k, id)
    requires forall j :: 0 <= j < i ==> !Matches(anns[j], k, id)
    ensures FirstMatch(anns, k, id) == Some(i)
  {
  }

  /** The car with this identifier that the map finds first sits at the car's coordinate. */
  predicate Shows(anns: seq<Annotation>, car: CarAnnotation) {
    var f := FirstMatch(anns, CarKind, car.identifier);
    f.Some? && anns[f.value].coordinate == car.coordinate
  }

  /** The star the map finds first sits at `center`. */
  predicate StarAt(anns: seq<Annotation>, center: Coordinate) {
    var f := FirstMatch(anns, StarKind, StarIdentifier);
    f.Some? && anns[f.value].coordinate == center
  }

  /**
   * `updateCarAnnotation`: move the car annotation with the car's
   * identifier to the car's coordinate, or add the car when there is none.
   */
  function UpdateCarAnnotation(m: MapState, car: CarAnnotation): (r: MapState)
    ensures r.region == m.region
    ensures match FirstMatch(m.annotations, CarKind, car.identifier)
      case Some(i) =>
        && |r.annotations| == |m.annotations|
        && r.annotations[i] == Car(m.annotations[i].identifier, car.coordinate, m.annotations[i].emoji)
        && forall j :: 0 <= j < |m.annotations| && j != i ==> r.annotations[j] == m.annotations[j]
      case None => r.annotations == m.annotations + [car]
    ensures Shows(r.annotations, car)
    ensures |m.annotations| <= |r.annotations| <= |m.annotations| + 1
    ensures KindOf(r.annotations, StarKind) == KindOf(m.annotations, StarKind)
  {
    var anns := m.annotations;
    match FirstMatch(anns, CarKind, car.identifier)
    case Some(i) =>
      var moved := Car(anns[i].identifier, car.coordinate, anns[i].emoji);
      KindOfReplace(anns, i, moved, StarKind);
      FirstMatchAt(anns[i := moved], CarKind, car.identifier, i);
      m.(annotations := anns[i := moved])
    case None =>
      KindOfConcat(anns, [car], StarKind);
      FirstMatchAt(anns + [car], CarKind, car.identifier, |anns|);
      m.(annotations := anns + [car])
  }

  /**
   * `updateStarAnnotation`: move the star with the sentinel identifier to
   * the map's center, or clear all stars and add the view's star there.
   */
  function UpdateStarAnnotation(m: MapState): (r: MapState)
    ensures r.region == m.region
    ensures match FirstMatch(m.annotations, StarKind, StarIdentifier)
      case Some(i) =>
        && |r.annotations| == |m.annotations|
        && r.annotations[i] == Star(StarIdentifier, m.region.center, m.annotations[i].emoji)
        && forall j :: 0 <= j < |m.annotations| && j != i ==> r.annotations[j] == m.annotations[j]
      case None => KindOf(r.annotations, StarKind) == [NewStar(m.region.center, WhiteStar)]
    ensures StarAt(r.annotations, m.region.center)
    ensures KindOf(r.annotations, CarKind) == KindOf(m.annotations, CarKind)
  {
    var anns := m.annotations;
    match FirstMatch(anns, StarKind, StarIdentifier)
    case Some(i) =>
      var moved := Star(StarIdentifier, m.region.center, anns[i].emoji);
      KindOfReplace(anns, i, moved, CarKind);
      FirstMatchAt(anns[i := moved], StarKind, StarIdentifier, i);
      m.(annotations := anns[i := moved])
    case None =>
      var cleared := RemoveStarAnnotations(m).annotations;
      var star := NewStar(m.region.center, WhiteStar);
      KindOfConcat(cleared, [star], StarKind);
      KindOfConcat(cleared, [star], CarKind);
      KindOfNone(cleared, StarKind);
      KindOfAll(cleared, CarKind);
      assert KindOf([star], CarKind) == [];
      FirstMatchAt(cleared + [star], StarKind, StarIdentifier, |cleared|);
      m.(annotations := cleared + [star])
  }

  /** Moving the star twice is moving it once. */
  lemma UpdateStarAnnotationIdempotent(m: MapState)
    ensures UpdateStarAnnotation(UpdateStarAnnotation(m)) == UpdateStarAnnotation(m)
  {
  }

  /** `removeCarAnnotations`: the stars stay, in order; no car is left. */
  function RemoveCarAnnotations(m: MapState): (r: MapState)
    ensures r.region == m.region
    ensures r.annotations == KindOf(m.annotations, StarKind)
    ensures KindOf(r.annotations, CarKind) == []
  {
    WithoutIsOtherKind(m.annotations);
    KindOfNone(Without(m.annotations, CarKind), CarKind);
    m.(annotations := Without(m.annotations, CarKind))
  }

  /** `removeStarAnnotations`: the cars stay, in order; no star is left. */
  function RemoveStarAnnotations(m: MapState): (r: MapState)
    ensures r.region == m.region
    ensures r.annotations == KindOf(m.annotations, CarKind)
    ensures KindOf(r.annotations, StarKind) == []
  {
    WithoutIsOtherKind(m.annotations);
    KindOfNone(Without(m.annotations, StarKind), StarKind);
    m.(annotations := Without(m.annotations, StarKind))
  }

  /** `updateUIView`: the pinned game region wins over the free one. */
  function UpdateUIView(parent: MapView, m: MapState): (r: MapState)
    ensures r.annotations == m.annotations
    ensures parent.fixedRegion.Some? ==> r.region == parent.fixedRegion.value
    ensures parent.fixedRegion.None? ==> r.region == parent.region
  {
    match parent.fixedRegion
    case Some(fixed) => m.(region := fixed)
    case None => m.(region := parent.region)
  }

  /**
   * `regionDidChangeAnimated`: snap back to the pinned region, or clamp the
   * free region's span, write it back to the parent and re-center the star.
   */
  function RegionDidChange(parent: MapView, m: MapState): (r: (MapView, MapState))
    ensures r.0.fixedRegion == parent.fixedRegion && r.0.cars == parent.cars
    ensures parent.fixedRegion.Some? ==>
      r.0 == parent && r.1 == MapState(parent.fixedRegion.value, m.annotations)
    ensures parent.fixedRegion.None? ==>
      && r.0.region == r.1.region
      && r.1.region == ClampRegion(m.region)
      && r.1.region.center == m.region.center
      && SpanInRange(r.1.region.span)
      && StarAt(r.1.annotations, m.region.center)
      && KindOf(r.1.annotations, CarKind) == KindOf(m.annotations, CarKind)
  {
    match parent.fixedRegion
    case Some(fixed) => (parent, m.(region := fixed))
    case None =>
      var newRegion := ClampRegion(m.region);
      (parent.(region := newRegion), UpdateStarAnnotation(m.(region := newRegion)))
  }

  /**
   * Setting the region from inside the handler fires the handler again;
   * the second call changes nothing, and `updateUIView` agrees with it.
   */
  lemma RegionDidChangeSettles(parent: MapView, m: MapState)
    ensures var (p, n) := RegionDidChange(parent, m);
      RegionDidChange(p, n) == (p, n) && UpdateUIView(p, n) == n
  {
    if parent.fixedRegion.None? {
      var newRegion := ClampRegion(m.region);
      ClampRegionIdempotent(m.region);
      UpdateStarAnnotationIdempotent(m.(region := newRegion));
    }
  }

  /** The loop of `checkRegion`: `updateCarAnnotation` for each car in order. */
  function SyncCars(m: MapState, cars: seq<CarAnnotation>): (r: MapState)
    ensures r.region == m.region
    ensures KindOf(r.annotations, StarKind) == KindOf(m.annotations, StarKind)
    ensures |m.annotations| <= |r.annotations| <= |m.annotations| + |cars|
    decreases |cars|
  {
    if |cars| == 0 then m
    else SyncCars(UpdateCarAnnotation(m, cars[0]), cars[1..])
  }

  predicate DistinctIdentifiers(cars: seq<CarAnnotation>) {
    forall i, j :: 0 <= i < j < |cars| ==> cars[i].identifier != cars[j].identifier
  }

  /** Updating one car leaves the annotation found for any other identifier alone. */
  lemma UpdateCarAnnotationFrame(m: MapState, car: CarAnnotation, id: int)
    requires id != car.identifier
    ensures FirstMatch(UpdateCarAnnotation(m, car).annotations, CarKind, id) == FirstMatch(m.annotations, CarKind, id)
    ensures FirstMatch(m.annotations, CarKind, id).Some? ==>
      var i := FirstMatch(m.annotations, CarKind, id).value;
      UpdateCarAnnotation(m, car).annotations[i] == m.annotations[i]
  {
    var r := UpdateCarAnnotation(m, car).annotations;
    var anns := m.annotations;
    assert forall j :: 0 <= j < |anns| ==> (Matches(r[j], CarKind, id) <==> Matches(anns[j], CarKind, id));
    match FirstMatch(anns, CarKind, id)
    case Some(i) => FirstMatchAt(r, CarKind, id, i);
    case None =>
      assert forall j :: 0 <= j < |r| ==> !Matches(r[j], CarKind, id);
  }

  /** No car in `cars` has identifier `id`. */
  predicate NoCarWith(cars: seq<CarAnnotation>, id: int) {
    forall i :: 0 <= i < |cars| ==> cars[i].identifier != id
  }

  lemma {:induction false} SyncCarsFrame(m: MapState, cars: seq<CarAnnotation>, id: int)
    requires NoCarWith(cars, id)
    ensures FirstMatch(SyncCars(m, cars).annotations, CarKind, id) == FirstMatch(m.annotations, CarKind, id)
    ensures FirstMatch(m.annotations, CarKind, id).Some? ==>
      var i := FirstMatch(m.annotations, CarKind, id).value;
      SyncCars(m, cars).annotations[i] == m.annotations[i]
    decreases |cars|
  {
    if |cars| > 0 {
      UpdateCarAnnotationFrame(m, cars[0], id);
      SyncCarsFrame(UpdateCarAnnotation(m, cars[0]), cars[1..], id);
    }
  }

  /** Syncing leaves the annotation found for every identifier outside `cars` as it was. */
  lemma SyncCarsFrameAll(m: MapState, cars: seq<CarAnnotation>)
    ensures forall id :: NoCarWith(cars, id) ==>
      FirstMatch(SyncCars(m, cars).annotations, CarKind, id) == FirstMatch(m.annotations, CarKind, id)
    ensures forall id :: NoCarWith(cars, id) && FirstMatch(m.annotations, CarKind, id).Some? ==>
      SyncCars(m, cars).annotations[FirstMatch(m.annotations, CarKind, id).value]
        == m.annotations[FirstMatch(m.annotations, CarKind, id).value]
  {
    forall id | NoCarWith(cars, id)
      ensures FirstMatch(SyncCars(m, cars).annotations, CarKind, id) == FirstMatch(m.annotations, CarKind, id)
      ensures FirstMatch(m.annotations, CarKind, id).Some? ==>
        SyncCars(m, cars).annotations[FirstMatch(m.annotations, CarKind, id).value]
          == m.annotations[FirstMatch(m.annotations, CarKind, id).value]
    {
      SyncCarsFrame(m, cars, id);
    }
  }

  /**
   * An identifier already on the map keeps its annotation's place, identifier
   * and glyph through the sync: only coordinates are copied onto it.
   */
  lemma {:induction false} SyncCarsKeepsExisting(m: MapState, cars: seq<CarAnnotation>, id: int)
    requires FirstMatch(m.annotations, CarKind, id).Some?
    ensures FirstMatch(SyncCars(m, cars).annotations, CarKind, id) == FirstMatch(m.annotations, CarKind, id)
    ensures var i := FirstMatch(m.annotations, CarKind, id).value;
      && SyncCars(m, cars).annotations[i].identifier == m.annotations[i].identifier
      && SyncCars(m, cars).annotations[i].emoji == m.annotations[i].emoji
    decreases |cars|
  {
    if |cars| > 0 {
      var next := UpdateCarAnnotation(m, cars[0]);
      var i := FirstMatch(m.annotations, CarKind, id).value;
      if cars[0].identifier == id {
        FirstMatchAt(next.annotations, CarKind, id, i);
      } else {
        UpdateCarAnnotationFrame(m, cars[0], id);
      }
      SyncCarsKeepsExisting(next, cars[1..], id);
    }
  }

  /** `SyncCarsKeepsExisting` for every identifier already on the map. */
  lemma SyncCarsKeepsExistingAll(m: MapState, cars: seq<CarAnnotation>)
    ensures forall id :: FirstMatch(m.annotations, CarKind, id).Some? ==>
      && FirstMatch(SyncCars(m, cars).annotations, CarKind, id) == FirstMatch(m.annotations, CarKind, id)
      && SyncCars(m, cars).annotations[FirstMatch(m.annotations, CarKind, id).value].identifier
           == m.annotations[FirstMatch(m.annotations, CarKind, id).value].identifier
      && SyncCars(m, cars).annotations[FirstMatch(m.annotations, CarKind, id).value].emoji
           == m.annotations[FirstMatch(m.annotations, CarKind, id).value].emoji
  {
    forall id | FirstMatch(m.annotations, CarKind, id).Some?
      ensures FirstMatch(SyncCars(m, cars).annotations, CarKind, id) == FirstMatch(m.annotations, CarKind, id)
      ensures SyncCars(m, cars).annotations[FirstMatch(m.annotations, CarKind, id).value].identifier
           == m.annotations[FirstMatch(m.annotations, CarKind, id).value].identifier
      ensures SyncCars(m, cars).annotations[FirstMatch(m.annotations, CarKind, id).value].emoji
           == m.annotations[FirstMatch(m.annotations, CarKind, id).value].emoji
    {
      SyncCarsKeepsExisting(m, cars, id);
    }
  }

  /** With distinct identifiers, every car ends up shown at its own coordinate. */
  lemma {:induction false} SyncCarsShowsCars(m: MapState, cars: seq<CarAnnotation>)
    ensures DistinctIdentifiers(cars) ==>
      forall i :: 0 <= i < |cars| ==> Shows(SyncCars(m, cars).annotations, cars[i])
    decreases |cars|
  {
    if |cars| > 0 && DistinctIdentifiers(cars) {
      var next := UpdateCarAnnotation(m, cars[0]);
      SyncCarsShowsCars(next, cars[1..]);
      SyncCarsFrame(next, cars[1..], cars[0].identifier);
      forall i | 1 <= i < |cars|
        ensures Shows(SyncCars(m, cars).annotations, cars[i])
      {
        assert cars[1..][i - 1] == cars[i];
      }
    }
  }

  /** On a map holding none of their identifiers, the cars are appended in order. */
  lemma {:induction false} SyncCarsAppendsNewCars(m: MapState, cars: seq<CarAnnotation>)
    requires DistinctIdentifiers(cars)
    requires forall i :: 0 <= i < |cars| ==> FirstMatch(m.annotations, CarKind, cars[i].identifier).None?
    ensures SyncCars(m, cars).annotations == m.annotations + cars
    decreases |cars|
  {
    if |cars| > 0 {
      var next := UpdateCarAnnotation(m, cars[0]);
      forall i | 1 <= i < |cars|
        ensures FirstMatch(next.annotations, CarKind, cars[i].identifier).None?
      {
        UpdateCarAnnotationFrame(m, cars[0], cars[i].identifier);
      }
      SyncCarsAppendsNewCars(next, cars[1..]);
      assert m.annotations + cars == (m.annotations + [cars[0]]) + cars[1..];
    }
  }

  /**
   * `checkRegion`, the view's timer: with a map and a pinned region, snap the
   * map to it and bring every game car onto the map; otherwise do nothing.
   */
  function CheckRegion(c: Coordinator): (r: Coordinator)
    ensures r.parent == c.parent
    ensures c.mapView.None? || c.parent.fixedRegion.None? ==> r == c
    ensures c.mapView.Some? && c.parent.fixedRegion.Some? ==>
      && r.mapView.Some?
      && r.mapView.value.region == c.parent.fixedRegion.value
      && KindOf(r.mapView.value.annotations, StarKind) == KindOf(c.mapView.value.annotations, StarKind)
      && (DistinctIdentifiers(c.parent.cars) ==>
            forall i :: 0 <= i < |c.parent.cars| ==> Shows(r.mapView.value.annotations, c.parent.cars[i]))
      && |c.mapView.value.annotations| <= |r.mapView.value.annotations|
            <= |c.mapView.value.annotations| + |c.parent.cars|
      && (forall id :: NoCarWith(c.parent.cars, id) ==>
            FirstMatch(r.mapView.value.annotations, CarKind, id)
              == FirstMatch(c.mapView.value.annotations, CarKind, id))
      && (forall id :: NoCarWith(c.parent.cars, id) && FirstMatch(c.mapView.value.annotations, CarKind, id).Some? ==>
            r.mapView.value.annotations[FirstMatch(c.mapView.value.annotations, CarKind, id).value]
              == c.mapView.value.annotations[FirstMatch(c.mapView.value.annotations, CarKind, id).value])
      && (forall id :: FirstMatch(c.mapView.value.annotations, CarKind, id).Some? ==>
            && FirstMatch(r.mapView.value.annotations, CarKind, id)
                 == FirstMatch(c.mapView.value.annotations, CarKind, id)
            && r.mapView.value.annotations[FirstMatch(c.mapView.value.annotations, CarKind, id).value].identifier
                 == c.mapView.value.annotations[FirstMatch(c.mapView.value.annotations, CarKind, id).value].identifier
            && r.mapView.value.annotations[FirstMatch(c.mapView.value.annotations, CarKind, id).value].emoji
                 == c.mapView.value.annotations[FirstMatch(c.mapView.value.annotations, CarKind, id).value].emoji)
  {
    match c.mapView
    case None => c
    case Some(m) =>
      match c.parent.fixedRegion
      case None => c
      case Some(fixed) =>
        // The lemma calls only supply the proofs: distinct cars end up shown,
        // annotations for identifiers no view car has are left alone, and
        // annotations already on the map keep their place and glyph.
        SyncCarsShowsCars(m.(region := fixed), c.parent.cars);
        SyncCarsFrameAll(m.(region := fixed), c.parent.cars);
        SyncCarsKeepsExistingAll(m.(region := fixed), c.parent.cars);
        c.(mapView := Some(SyncCars(m.(region := fixed), c.parent.cars)))
  }
}

=== FILE: motion.dfy ===
/**
 * One car's motion toward the target. The tick compares the Euclidean
 * distance in degree space with a stop distance and, when the car is not yet
 * there, moves it a fixed step along the unit vector toward the target.
 *
 * The square root is not modelled: the parked test is stated on the squared
 * distance, and the step takes the distance `d` as an argument, related to the
 * squared distance by `Square(d) == SquaredDistance(...)` where that matters.
 */
module Motion {
  import opened Geo

  /** A car closer than this to the target does not move. */
  const StopDistance: real := 0.003

  /** Degrees a moving car travels per tick. */
  const Speed: real := 0.0002

  /** A square below `b * b` puts its root strictly between `-b` and `b`. */
  lemma SquareBelow(x: real, b: real)
    requires b > 0.0 && Square(x) < b * b
    ensures -b < x < b
  {
  }

  /**
   * The tick's `distance < stopDistance` test, squared on both sides. A car
   * on the target is parked.
   */
  predicate Parked(position: Coordinate, center: Coordinate)
    ensures position == center ==> Parked(position, center)
  {
    SquaredDistance(position, center) < StopDistance * StopDistance
  }

  /** A parked car is within the stop distance of the target on each axis. */
  lemma ParkedWithinStopDistanceOnEachAxis(position: Coordinate, center: Coordinate)
    requires Parked(position, center)
    ensures -StopDistance < position.latitude - center.latitude < StopDistance
    ensures -StopDistance < position.longitude - center.longitude < StopDistance
  {
    SquareBelow(position.latitude - center.latitude, StopDistance);
    SquareBelow(position.longitude - center.longitude, StopDistance);
  }

  /** The squared test agrees with the test on the distance itself. */
  lemma ParkedIffWithinStopDistance(position: Coordinate, center: Coordinate, d: real)
    requires d >= 0.0 && Square(d) == SquaredDistance(position, center)
    ensures Parked(position, center) <==> d < StopDistance
  {
    if d < StopDistance {
      assert d * d <= d * StopDistance;
      assert d * StopDistance < StopDistance * StopDistance;
    } else {
      assert d * d >= d * StopDistance;
      assert d * StopDistance >= StopDistance * StopDistance;
    }
  }

  /** One step of length `Speed` from `position` toward `center`, `d` apart. */
  function Advance(position: Coordinate, center: Coordinate, d: real): (r: Coordinate)
    requires d > 0.0
    ensures center.latitude - r.latitude == (center.latitude - position.latitude) * (1.0 - Speed / d)
    ensures center.longitude - r.longitude == (center.longitude - position.longitude) * (1.0 - Speed / d)
  {
    var deltaLatitude := (center.latitude - position.latitude) / d;
    var deltaLongitude := (center.longitude - position.longitude) / d;
    Coordinate(position.latitude + deltaLatitude * Speed, position.longitude + deltaLongitude * Speed)
  }

  lemma ScaledSquares(a: real, b: real, k: real)
    ensures (a * k) * (a * k) + (b * k) * (b * k) == (k * k) * (a * a + b * b)
  {
  }

  lemma UnitStep(d: real)
    requires d > 0.0
    ensures (1.0 - Speed / d) * d == d - Speed
  {
  }

  /** A car that is not parked gets exactly `Speed` closer to the target. */
  lemma AdvanceShortensBySpeed(position: Coordinate, center: Coordinate, d: real)
    requires d >= StopDistance && Square(d) == SquaredDistance(position, center)
    ensures SquaredDistance(Advance(position, center, d), center) == Square(d - Speed)
  {
    var r := Advance(position, center, d);
    var k := 1.0 - Speed / d;
    var dLat := center.latitude - position.latitude;
    var dLon := center.longitude - position.longitude;
    UnitStep(d);
    ScaledSquares(dLat, dLon, k);
    ScaledSquares(d, 0.0, k);
    assert r.latitude - center.latitude == -(dLat * k);
    assert r.longitude - center.longitude == -(dLon * k);
    assert SquaredDistance(r, center) == (dLat * k) * (dLat * k) + (dLon * k) * (dLon * k);
    assert SquaredDistance(position, center) == dLat * dLat + dLon * dLon;
  }

  /**
   * `n` ticks of one car toward a fixed target, returning its position and
   * its distance: a parked car stays where it is.
   */
  function Approach(position: Coordinate, center: Coordinate, d: real, n: nat): (r: (Coordinate, real))
    requires d >= 0.0
    ensures r.1 >= 0.0
    ensures r.1 >= StopDistance ==> r.1 == d - (n as real) * Speed
    decreases n
  {
    if n == 0 || d < StopDistance then (position, d)
    else Approach(Advance(position, center, d), center, d - Speed, n - 1)
  }

  /**
   * The tick converges: after `n` ticks with `n * Speed >= d` the car is
   * parked, and the distance carried along is the true distance throughout.
   */
  lemma {:induction false} ApproachParks(position: Coordinate, center: Coordinate, d: real, n: nat)
    requires d >= 0.0 && Square(d) == SquaredDistance(position, center)
    requires (n as real) * Speed >= d
    ensures Approach(position, center, d, n).1 < StopDistance
    ensures Square(Approach(position, center, d, n).1) == SquaredDistance(Approach(position, center, d, n).0, center)
    ensures Parked(Approach(position, center, d, n).0, center)
    decreases n
  {
    if n == 0 || d < StopDistance {
      assert Approach(position, center, d, n) == (position, d);
      ParkedIffWithinStopDistance(position, center, d);
    } else {
      var next := Advance(position, center, d);
      AdvanceShortensBySpeed(position, center, d);
      assert ((n - 1) as real) * Speed >= d - Speed;
      assert Approach(position, center, d, n) == Approach(next, center, d - Speed, n - 1);
      ApproachParks(next, center, d - Speed, n - 1);
    }
  }

  /** A car 0.0031 degrees north of the target moves 0.0002 degrees south. */
  lemma StepNorthOfTarget()
    ensures Square(0.0031) == SquaredDistance(Coordinate(10.0031, 20.0), Coordinate(10.0, 20.0))
    ensures !Parked(Coordinate(10.0031, 20.0), Coordinate(10.0, 20.0))
    ensures Advance(Coordinate(10.0031, 20.0), Coordinate(10.0, 20.0), 0.0031) == Coordinate(10.0029, 20.0)
  {
  }

  /** A car 0.002 degrees from the target is parked. */
  lemma ParkedNearTarget()
    ensures Parked(Coordinate(10.002, 20.0), Coordinate(10.0, 20.0))
  {
  }
}

=== FILE: session.dfy ===
/**
 * A game session as the screens drive it: any sequence of starts, ends and
 * timer ticks applied to one `Game`. `Apply` yields `None` when `startGame`
 * would trap or the draws are ones the random generators cannot produce.
 */
module Session {
  import opened Wrappers
  import opened Geo
  import opened GameSession

  datatype Event =
    | Start(region: Region, draws: seq<Draw>)
    | End
    | Tick(step: (Coordinate, Coordinate) -> Coordinate)

  function Apply(g: Game, e: Event): (r: Option<Game>)
    ensures e.Start? ==> (r.Some? <==> CanStart(g, e.draws))
    ensures !e.Start? ==> r.Some?
  {
    match e
    case Start(region, draws) =>
      if CanStart(g, draws) then Some(StartGame(g, region, draws)) else None
    case End => Some(EndGame(g))
    case Tick(step) => Some(UpdateCarPositions(g, step))
  }

  function Run(g: Game, events: seq<Event>): Option<Game>
    decreases |events|
  {
    if |events| == 0 then Some(g)
    else match Apply(g, events[0])
      case None => None
      case Some(next) => Run(next, events[1..])
  }

  function Starts(events: seq<Event>): (n: nat)
    ensures n <= |events|
    decreases |events|
  {
    if |events| == 0 then 0
    else (if events[0].Start? then 1 else 0) + Starts(events[1..])
  }

  /**
   * Along any run the level rises by exactly the number of starts, so it
   * never goes down, and every state reached is consistent.
   */
  lemma {:induction false} RunCountsLevels(g: Game, events: seq<Event>)
    requires Run(g, events).Some?
    ensures Run(g, events).value.level == g.level + Starts(events)
    ensures Run(g, events).value.level >= g.level
    ensures Consistent(g) ==> Consistent(Run(g, events).value)
    decreases |events|
  {
    if |events| > 0 {
      var next := Apply(g, events[0]).value;
      match events[0] {
        case Start(region, draws) => StartGameConsistent(g, region, draws);
        case End => EndGameConsistent(g);
        case Tick(step) =>
          if Consistent(g) {
            UpdateCarPositionsConsistent(g, step);
          }
      }
      RunCountsLevels(next, events[1..]);
    }
  }

  /** Any run from a freshly constructed game keeps the invariant. */
  lemma RunFromInitConsistent(level: int, events: seq<Event>)
    requires Run(Init(level), events).Some?
    ensures Consistent(Run(Init(level), events).value)
    ensures Run(Init(level), events).value.level == level + Starts(events)
  {
    InitConsistent(level);
    RunCountsLevels(Init(level), events);
  }

  /**
   * The app constructs `Game(level: 5)`: the first start spawns six cars,
   * because the level is raised before the observer respawns.
   */
  lemma FirstStartSpawnsSix(region: Region, draws: seq<Draw>)
    requires |draws| == 6 && ValidDraws(draws)
    ensures Run(Init(5), [Start(region, draws)]).Some?
    ensures Run(Init(5), [Start(region, draws)]).value.level == 6
    ensures |Run(Init(5), [Start(region, draws)]).value.cars| == 6
  {
    assert [Start(region, draws)][1..] == [];
  }
}

=== FILE: wrappers.dfy ===
/** Swift's optionals (`T?`): a value that may be absent. */
module Wrappers {

  datatype Option<+T> = None | Some(value: T)
}
